=== FILE: README.md ===
# Periodic-table quiz: a Dafny model of the session core

The game drills the first twenty elements of the periodic table. A round shows the twenty
elements in shuffled order, one prompt at a time: the element's name, its symbol or its proton
count. The player answers by tapping an element button or an on-screen keyboard key, or by
handwriting the symbol, which a text recognizer reads. On some questions a "temptation" is
rolled: the first right answer is met with a soft rejection and must be given again. Wrong
answers put the element's symbol into a miss set. The timer shows `mm:ss.cc`. When the round
ends, the display string is compared, as a string, with the stored personal best.

The model is written as pure functions over immutable data:

- `Catalog`: the twenty-element table, and lookup by exact symbol.
- `Symbols`: the recognizer's text cleanup. This is JavaScript-style `trim`, followed by
  symbol normalization (keep ASCII letters, then upper-case the first and lower-case the second).
- `Ordering`: the Fisher–Yates shuffle. The random draws are a parameter (`draws[i]` in `0..i`).
- `Timing`: the `mm:ss.cc` display, JavaScript's lexicographic string `<`, and the best-time rule.
- `Game`: the session state machine. This covers starting a round, loading a question with its
  temptation roll, judging an answer, the deferred load 500 ms after a right answer, and
  finishing the round.
- `Recognition`: the path from recognized text to a submitted answer. The text is trimmed,
  normalized, looked up, and submitted with the recognition flag set.
- `Rounds`: whole rounds as event sequences (answers and deferred loads firing).
- `Findings`: the two defects of the answer check that the 500 ms gap causes. For each,
  the module holds the code as written and the corrected check.

The 500 ms gap is modelled explicitly. After a right answer the position moves on at once. The
next question is loaded only when the deferred call fires. The state counts the loads still
pending (`pendingAdvances`) and records which position's prompt is on screen (`shown`).
`Game.CheckAnswer` is the check as written. `Game.Submit` is the corrected check: it ignores
answers while a load is pending. The recognition path and the event model take the check as a
parameter (`Game.Check`). `Game.AsWritten` gives the program as it is, and `Game.Corrected`
gives the corrected program.

Two properties of the program that are easy to miss:

- The best time is kept by comparing `mm:ss.cc` display strings. This orders times correctly
  only below 100 minutes, because the minutes field grows to three digits from there on
  (`Timing.FormatOrder`, `Timing.OrderBreaksAtHundredMinutes`).
- An answer inside the 500 ms gap that is right for the next, not yet shown question is
  accepted, and it schedules a second deferred load, so two loads can be pending at once
  (`Findings.BlindAnswerSchedulesSecondLoad`).

## Model

| member | source | states |
|---|---|---|
| Catalog.NumbersFollowPositions | script.js:2-23 | The table has twenty entries, and the entry at position k has atomic number k+1. The answer check relies on this when it compares a number with `ELEMENTS[idx].n`. |
| Catalog.SymbolsAreDistinct | script.js:2-23 | No two elements share a symbol, so a symbol names exactly one element. |
| Catalog.FindFrom | script.js:376 | A search from position `from` returns the first position whose symbol equals the text, or reports that no later position has it. |
| Catalog.Find | script.js:376 | `ELEMENTS.find(e => e.s === text)`: it finds an element exactly when the text is some element's symbol, and then returns that element. |
| Symbols.Upper | script.js:396-398 | `toUpperCase` on an ASCII letter gives the upper-case letter. Upper-case letters are kept. |
| Symbols.Lower | script.js:398 | `toLowerCase` on an ASCII letter gives the lower-case letter. Lower-case letters are kept. |
| Symbols.Letters | script.js:394 | Removing every character outside `[a-zA-Z]` keeps only letters. It is empty exactly when the text has no letter, and it leaves an all-letter text unchanged. |
| Symbols.LettersOfConcat | script.js:394 | The letter filter distributes over concatenation. |
| Symbols.NormalizeSymbol | script.js:391-401 | The result is in symbol form: one upper-case letter, optionally followed by a lower-case one. It is empty exactly when the text has no ASCII letter. Its length is the letter count capped at 2. Ignoring case, it is the first one or two letters. |
| Symbols.NormalizeIsIdempotent | script.js:391-401 | Normalizing twice gives the same result as normalizing once. |
| Symbols.NormalizeFixesExactlyCanonical | script.js:391-401 | A text is left unchanged by normalization if and only if it is already in symbol form. |
| Symbols.NormalizeExamples | script.js:391-401 | "h"→"H", "he"→"He", "HEE"→"He", "1C2"→"C", and the empty text stays empty. |
| Symbols.TrimStart | script.js:369 | It removes exactly the leading white space and returns a suffix of the input. |
| Symbols.TrimEnd | script.js:369 | It removes exactly the trailing white space and returns a prefix of the input. |
| Symbols.Trim | script.js:369 | `trim()`: the result is a slice of the input, and everything cut off on either side is white space. Neither end of the result is white space, and the letters are those of the input. |
| Symbols.TrimIsCore | script.js:369 | Removing leading and then trailing white space leaves a slice whose surroundings are all white space. |
| Symbols.CoreOfSuffixPrefix | script.js:369 | A white-space-free suffix cut followed by a prefix cut gives a slice of the original, with only white space outside it. |
| Symbols.TrimKeepsLetters | script.js:369 | Trimming both ends keeps the sequence of letters. |
| Symbols.TrimStartKeepsLetters | script.js:369 | Removing leading white space keeps the letters. |
| Symbols.TrimEndKeepsLetters | script.js:369 | Removing trailing white space keeps the letters. |
| Symbols.SpacesHaveNoLetters | script.js:369 | A run of white space contains no letters. |
| Symbols.NormalizeIgnoresTrim | script.js:369-372 | Normalizing the trimmed text gives the same result as normalizing the raw text. |
| Ordering.Range | script.js:134 | `[...Array(n).keys()]` is the list 0..n-1 in order. |
| Ordering.Swap | script.js:120 | The destructuring swap exchanges two entries, leaves all others alone, and keeps the multiset of entries. |
| Ordering.ShuffleDown | script.js:118-121 | The loop from i down to 1 keeps the length and the multiset of entries, and never touches positions above i. |
| Ordering.Shuffle | script.js:117-123 | For any draws with `j ≤ i`, the shuffle returns a permutation of its input. |
| Ordering.RangeCounts | script.js:134 | Each number below n occurs exactly once in 0..n-1. No other number occurs. |
| Ordering.PermutationFacts | script.js:134 | A permutation of 0..n-1 has n distinct entries, all below n, and contains every number below n. |
| Ordering.ShuffledRangeIsPermutation | script.js:117-134 | Shuffling 0..n-1 yields each position exactly once, whatever the draws. |
| Timing.ClockOf | script.js:252-254 | The minutes, seconds and centiseconds fields together spell the elapsed whole centiseconds. Seconds are below 60 and centiseconds below 100. Minutes have two digits exactly below 100 minutes. |
| Timing.ClockArithmetic | script.js:252-254 | The three floor divisions recombine to the elapsed time in centiseconds. |
| Timing.Decimal | script.js:257 | `toString()` of a number gives decimal digits. It has one digit exactly below 10. |
| Timing.DecimalSpellsValue | script.js:257 | The digits of `toString()`, read left to right, denote the number itself. Only the spelling "0" starts with a zero. |
| Timing.Pad2 | script.js:257 | `padStart(2, '0')` puts one '0' in front of a one-digit spelling and leaves a spelling of two or more digits unchanged. So a number below 100 gives its two decimal digits, and from 100 on the result is longer than two characters. |
| Timing.DecimalOfTwoDigits | script.js:257 | A two-digit number is spelled as its tens digit followed by its units digit. |
| Timing.FormatTime | script.js:256-257 | The display has exactly eight characters if and only if the time is below 100 minutes. |
| Timing.LexLessIrreflexive | script.js:270 | The string `<` that compares the finished time with the stored best never holds between a string and itself. |
| Timing.LexLessTransitive | script.js:270 | That string `<` is transitive. |
| Timing.LexLessTotal | script.js:270 | Of two different strings, one is `<` the other. So it is a strict total order, and the stored best is a well-defined minimum. |
| Timing.LexLessOfConcat | script.js:270 | String `<` on two concatenations whose first parts have equal length compares the first parts, then the second parts. |
| Timing.Pad2Order | script.js:257-270 | On two-digit fields, string order agrees with number order, and string equality with number equality. |
| Timing.FormatOrder | script.js:252-270 | Below 100 minutes, one display sorts before another exactly when its time in whole centiseconds is smaller. Two displays are equal exactly when the centiseconds are equal. |
| Timing.FormatLess | script.js:252-270 | Below 100 minutes, one display sorts before another exactly when its elapsed whole centiseconds are fewer. |
| Timing.FormatEqual | script.js:252-270 | Below 100 minutes, two displays are equal exactly when their elapsed whole centiseconds are equal. |
| Timing.FieldsOfFormat | script.js:256-257 | Below 100 minutes the minutes, seconds and centiseconds fields sit at characters 0-1, 3-4 and 6-7 of the display. |
| Timing.ParseFormat | script.js:252-257 | Below 100 minutes the display can be read back to the elapsed time in centiseconds. |
| Timing.OrderBreaksAtHundredMinutes | script.js:257-270 | From 100 minutes the order breaks: the display of 100:00.00 sorts before that of 99:59.99. |
| Timing.UpdateBest | script.js:269-272 | The new display is stored exactly when nothing is stored, the stored value is empty, or the new display sorts before it. Otherwise the stored value is kept. |
| Timing.UpdateBestKeepsFaster | script.js:269-272 | Below 100 minutes, the stored display afterwards is that of the faster of the stored time and the new time. |
| Timing.RecordAllFrom | script.js:269-272 | Below 100 minutes, starting from a stored best, any series of rounds leaves the display of a time from the series or the old best, and no time seen is faster. |
| Timing.RecordAllKeepsFastest | script.js:269-272 | Below 100 minutes, starting with nothing stored, a series of rounds leaves the display of its fastest round. |
| Game.AddMissed | script.js:221 | Adding to the miss set keeps it free of repeats. The members afterwards are the old members plus the new symbol. Earlier members keep their order. |
| Game.CheckAnswer | script.js:199-227 | When not playing, the answer is ignored. It crashes exactly when no question is at the current position. A right answer on an untriggered temptation question only arms the temptation. Otherwise a right answer moves the position on and schedules one load. A wrong answer adds the current symbol to the miss set. The canvas is cleared exactly for a judged answer from recognition. |
| Game.Submit | script.js:199-227 | The corrected check ignores answers while a load is pending. Otherwise it behaves exactly as the original check. |
| Game.FinishGame | script.js:262-272 | Finishing stops play, changes nothing else in the round, and applies the best-time rule to the final display. |
| Game.LoadQuestion | script.js:171-190 | Loading puts the current position on screen with a fresh temptation roll, not yet triggered, and changes nothing else. |
| Game.NextQuestion | script.js:165-197 | At position 20 or beyond it finishes the round. Otherwise it loads the current question and leaves play on. |
| Game.FireAdvance | script.js:165-216 | A deferred load that fires removes one pending load. Play continues exactly when the position is still below 20. A continuing round shows the current position with a fresh temptation roll, not yet triggered, and keeps the stored best. Past the last question the best-time rule is applied to the display. The order, position, miss set, modes and start time are unchanged. |
| Game.StartGame | script.js:125-147 | The round starts valid and playing. The position, shown prompt and miss set are reset. The modes and start time are recorded. The order is a fresh shuffle. The first question is loaded with the temptation roll. Pending loads and the best time are carried over. |
| Game.FreshRoundIsValid | script.js:134-144 | A freshly reset round with its first question loaded satisfies the round invariant. |
| Game.FreshOrder | script.js:134 | The shuffled question order lists each of the twenty catalog positions exactly once. |
| Game.ValidCanLoad | script.js:165-172 | In a valid round a question can always be loaded at the current position, unless the round is past the end. |
| Game.CheckAnswerKeepsValid | script.js:199-227 | The original check keeps the round invariant. |
| Game.FireAdvanceKeepsValid | script.js:165-216 | A deferred load keeps the round invariant. |
| Game.SubmitNeverCrashes | script.js:202-203 | In a valid round the corrected check never reads past the question order. |
| Game.SubmitKeepsValid | script.js:199-227 | The corrected check keeps the round invariant. |
| Game.Judge | script.js:199-227 | Under either check, an answer while not playing is ignored and leaves the state alone. The canvas is cleared exactly when a recognition answer gets judged right, tempted or wrong. |
| Game.JudgeKeepsValid | script.js:199-227 | Both the check as written and the corrected check keep the round invariant. With nothing pending the two checks agree. |
| Game.SubmitJudgesShownQuestion | script.js:202-222 | The corrected check judges the question on screen. A miss records the symbol of the element shown. Only that element's number is accepted. |
| Game.RepeatedMissCountsOnce | script.js:221 | Three wrong answers and then the right one leave the element in the miss set exactly once and move the position on. |
| Game.MultisetOfDistinct | script.js:136 | A symbol that is in a repeat-free miss set occurs in it exactly once. |
| Game.TemptationNeedsSecondAnswer | script.js:205-217 | On a temptation question the first right answer is held back without a miss, and the second right answer counts. |
| Game.CarbonScenario | script.js:199-222 | With carbon on screen, 6 is accepted and 7 records "C" as missed. |
| Recognition.Candidate | script.js:369-372 | The previewed candidate is in symbol form, and it equals the normalization of the raw recognized text. |
| Recognition.Dispatch | script.js:376-378 | Recognized text submits atomic number k+1, flagged as coming from recognition, exactly when its candidate is the symbol of element k. It submits nothing exactly when the candidate is no symbol. |
| Recognition.RecognizeText | script.js:355-386 | A missing engine shows "Err", and a failed call shows "?". Otherwise an answer is submitted exactly when the candidate names an element, and it goes to the chosen check. The preview is the candidate when nothing is judged. It is "?" when judging fails. It is "..." when the answer is judged, since judging a recognized answer clears the drawing surface. A late result after the round is over changes nothing. |
| Recognition.CatalogSymbolsAreCanonical | script.js:391-401 | Every catalog symbol is already in normalized form. |
| Recognition.WritingASymbolSubmitsIt | script.js:369-378 | Writing an element's symbol, with any white space around it, submits exactly that element's atomic number. |
| Recognition.LateResultIsIgnored | script.js:355-386 | A recognition result arriving after the round has ended neither changes the state nor clears the canvas. |
| Recognition.RecognitionAfterLastAnswer | script.js:355-386 | After the right answer to the last question and before the round finishes, a recognized symbol makes the check as written fail, and "?" is shown. The corrected check ignores the symbol and shows it. |
| Rounds.RunKeepsValid | script.js:165-227 | Every sequence of answers and deferred loads keeps the round invariant. This holds for the program as written and for the corrected one. |
| Rounds.FinishedRoundIsFrozen | script.js:166-200 | After the last question no answer or late timer changes the round. Play stays stopped, and the order, position, miss set and temptation state stay put. |
| Rounds.AnswerCorrectly | script.js:205-217 | Under either check, answering the shown question correctly and letting the load fire moves exactly one question on with no miss and the same question order. On a temptation question the answer is given twice. The next question is loaded with the new roll. Past the last question the round finishes and applies the best-time rule. |
| Rounds.CorrectAnswerRuns | script.js:205-217 | Running the events of a correct answer gives the outcome stated above. |
| Rounds.CorrectAnswerReachesLoad | script.js:205-216 | Just before the deferred load fires, a correct answer has moved the position on by one, with one load pending and no miss. |
| Rounds.PlayPerfectly | script.js:125-272 | Under either check, answering every remaining question correctly ends the round at position 20. No miss is added, and the best-time rule is applied to the final display. |
| Findings.DoubleTapRecordsUnseenQuestion | script.js:205-221 | As written, repeating a right answer inside the 500 ms gap judges it against the next question, whose prompt is not on screen yet. That element is recorded as missed. |
| Findings.BlindAnswerSchedulesSecondLoad | script.js:205-216 | As written, an answer inside the gap that is right for the next, not yet shown question is accepted. The position moves two questions past the one on screen and two deferred loads are pending. |
| Findings.LastAnswerTwiceCrashes | script.js:202-216 | As written, any answer inside the gap after the right answer to the last question reads past the end of the question order. |
| Findings.DoubleTapIsIgnored | script.js:199-227 | Corrected: an answer repeated inside the gap is ignored. The miss set and the position stay as the right answer left them. |

## Left out

- Audio cues, screen switching, feedback overlay, progress bar and prompt text: they are
  presentation only. The mode is recorded, but which element field is displayed is not modelled.
- The drawing surface, its 800 ms debounce, and the recognizer's start-up and character
  whitelist: recognition is modelled as an engine reply (unavailable, failed, or a text).
- The browser's persistent storage: the stored best is an `Option<string>` in the session.
- The clock (`performance.now`) and the animation-frame loop: elapsed time enters as a natural
  number of milliseconds. The final display enters as a string parameter, since the original
  reads it back from the screen.
- `Math.random`: the shuffle draws and the temptation roll (below 0.2) are parameters.
- Event wiring and the on-screen keyboard builder: every input path ends in the answer check
  with a number. The `parseInt` of a button's data attribute is taken as already done, so
  answers are integers.
- Timing.LexLess: it compares characters as code points, whereas JavaScript compares UTF-16
  code units. The two agree on the ASCII digits and separators of the timer display.
- Symbols.IsSpace: it lists the JavaScript white-space and line-terminator characters by code
  point. The Unicode database behind the `Zs` category is not consulted.
- Game.StartGame: like the original, starting a round does not cancel loads still pending from
  the previous round, so `pendingAdvances` carries over.

## Findings

| source | as written | input that shows it | evidently intended | confidence | as-written member | corrected member |
|---|---|---|---|---|---|---|
| script.js:205-221 | A right answer moves the position on at once, but the next prompt appears only 500 ms later. An answer inside the gap is judged against the next question, using the previous question's temptation flags. | During play with no temptation, tap the right element twice within 500 ms. The second tap records the next, still unseen, element as missed. | Ignore answers until the next question is on screen. | not executed | Findings.DoubleTapRecordsUnseenQuestion | Findings.DoubleTapIsIgnored |
| script.js:202-216 | After the right answer to the twentieth question the position is 20 until the deferred finish runs. `questions[20]` is undefined, so another answer throws a type error. | Answer the last question correctly, then tap any element within 500 ms. | Ignore answers until the round has finished. | not executed | Findings.LastAnswerTwiceCrashes | Game.SubmitNeverCrashes |

=== FILE: catalog.dfy ===
/** The element catalog: the twenty elements the quiz asks about, in order of atomic number. */
module Catalog {
  import opened Wrappers

  /** One catalog entry: atomic number, chemical symbol and display name. */
  datatype Element = Element(n: nat, s: string, name: string)

  /** Number of elements in the catalog, and so the number of questions in a round. */
  const Count: nat := 20

  const Elements: seq<Element> := [
    Element(1, "H", "水素"),
    Element(2, "He", "ヘリウム"),
    Element(3, "Li", "リチウム"),
    Element(4, "Be", "ベリリウム"),
    Element(5, "B", "ホウ素"),
    Element(6, "C", "炭素"),
    Element(7, "N", "窒素"),
    Element(8, "O", "酸素"),
    Element(9, "F", "フッ素"),
    Element(10, "Ne", "ネオン"),
    Element(11, "Na", "ナトリウム"),
    Element(12, "Mg", "マグネシウム"),
    Element(13, "Al", "アルミニウム"),
    Element(14, "Si", "ケイ素"),
    Element(15, "P", "リン"),
    Element(16, "S", "硫黄"),
    Element(17, "Cl", "塩素"),
    Element(18, "Ar", "アルゴン"),
    Element(19, "K", "カリウム"),
    Element(20, "Ca", "カルシウム")
  ]

  /** True when `text` is the symbol of some catalog element. */
  predicate IsSymbol(text: string) {
    exists k | 0 <= k < |Elements| :: Elements[k].s == text
  }

  /** Every entry's atomic number is its position plus one, so position and number identify each other. */
  lemma NumbersFollowPositions()
    ensures |Elements| == Count
    ensures forall k | 0 <= k < |Elements| :: Elements[k].n == k + 1
  {
  }

  /** No two entries share a symbol, so a symbol names at most one element. */
  lemma SymbolsAreDistinct()
    ensures forall i, j | 0 <= i < |Elements| && 0 <= j < |Elements| && i != j :: Elements[i].s != Elements[j].s
  {
  }

  /** Position of the first entry at or after `from` whose symbol is exactly `text`. */
  function FindFrom(text: string, from: nat): (r: Option<nat>)
    requires from <= |Elements|
    ensures r.Some? ==> from <= r.value < |Elements| && Elements[r.value].s == text
    ensures r.Some? ==> forall j | from <= j < r.value :: Elements[j].s != text
    ensures r.None? ==> forall j | from <= j < |Elements| :: Elements[j].s != text
    decreases |Elements| - from
  {
    if from == |Elements| then None
    else if Elements[from].s == text then Some(from)
    else FindFrom(text, from + 1)
  }

  /** The first element whose symbol is exactly `text`, as `Array.prototype.find` returns it. */
  function Find(text: string): (r: Option<Element>)
    ensures r.Some? <==> IsSymbol(text)
    ensures forall k | 0 <= k < |Elements| && Elements[k].s == text :: r == Some(Elements[k])
  {
    SymbolsAreDistinct();
    match FindFrom(text, 0)
    case Some(k) => Some(Elements[k])
    case None => None
  }
}

=== FILE: findings.dfy ===
/** Two defects of the answer check as written, each next to the corrected check that the rest
    of the model uses. Both come from the 500 ms gap between accepting a right answer and
    loading the next question: the position moves on at once, the prompt only later. */
module Findings {
  import Catalog
  import Game

  /** The element at position `p` of the round's question order. */
  function QuestionAt(g: Game.GameState, p: nat): Catalog.Element
    requires Game.Valid(g) && p < Catalog.Count
  {
    Game.Current(g.(currentQuestionIndex := p))
  }

  /** As written: repeating a right answer inside the gap (a double tap on the button) judges it
      against the next question, whose prompt is not on screen yet. The answer is wrong for that
      question, so an element the player never saw goes into the miss set. */
  lemma DoubleTapRecordsUnseenQuestion(g: Game.GameState)
    requires Game.Valid(g) && g.isPlaying && g.pendingAdvances == 0 && !g.temptationActive
    requires g.currentQuestionIndex + 1 < Catalog.Count
    ensures var shownNow := QuestionAt(g, g.currentQuestionIndex);
      var unseen := QuestionAt(g, g.currentQuestionIndex + 1);
      var r1 := Game.CheckAnswer(g, shownNow.n, false);
      var r2 := Game.CheckAnswer(r1.state, shownNow.n, false);
      && r1.verdict == Game.Correct && r2.verdict == Game.Incorrect
      && r2.state.shown == g.currentQuestionIndex
      && unseen.s != shownNow.s
      && r2.state.missed == Game.AddMissed(g.missed, unseen.s)
  {
    var i := g.currentQuestionIndex;
    Catalog.NumbersFollowPositions();
    Catalog.SymbolsAreDistinct();
    var p, q := g.questions[i], g.questions[i + 1];
    assert p != q;
    assert Catalog.Elements[p].n != Catalog.Elements[q].n;
    assert Catalog.Elements[p].s != Catalog.Elements[q].s;
  }

  /** As written: inside the gap, an answer that is right for the next question, whose prompt
      is not on screen yet, is accepted and schedules a second deferred load. */
  lemma BlindAnswerSchedulesSecondLoad(g: Game.GameState)
    requires Game.Valid(g) && g.isPlaying && g.pendingAdvances == 0 && !g.temptationActive
    requires g.currentQuestionIndex + 1 < Catalog.Count
    ensures var r1 := Game.CheckAnswer(g, QuestionAt(g, g.currentQuestionIndex).n, false);
      var r2 := Game.CheckAnswer(r1.state, QuestionAt(g, g.currentQuestionIndex + 1).n, false);
      && r1.verdict == Game.Correct && r2.verdict == Game.Correct
      && r2.state.shown == g.currentQuestionIndex
      && r2.state.currentQuestionIndex == g.currentQuestionIndex + 2
      && r2.state.pendingAdvances == 2
  {
  }

  /** As written: after the right answer to the last question, any further answer inside the gap
      reads past the end of the question order, and the check fails with a type error. */
  lemma LastAnswerTwiceCrashes(g: Game.GameState, answer: int)
    requires Game.Valid(g) && g.isPlaying && g.pendingAdvances == 0 && !g.temptationActive
    requires g.currentQuestionIndex + 1 == Catalog.Count
    ensures var last := QuestionAt(g, g.currentQuestionIndex);
      var r1 := Game.CheckAnswer(g, last.n, false);
      && r1.verdict == Game.Correct
      && Game.CheckAnswer(r1.state, answer, false).verdict == Game.Crashed
  {
  }

  /** Corrected: an answer repeated inside the gap is ignored, so the miss set and the position
      stay as the right answer left them. */
  lemma DoubleTapIsIgnored(g: Game.GameState, answer: int, fromOcr: bool)
    requires Game.Valid(g) && g.isPlaying && g.pendingAdvances == 0 && !g.temptationActive
    ensures var shownNow := QuestionAt(g, g.currentQuestionIndex);
      var r1 := Game.Submit(g, shownNow.n, false);
      var r2 := Game.Submit(r1.state, answer, fromOcr);
      && r1.verdict == Game.Correct
      && r2.verdict == Game.Ignored && r2.state == r1.state
      && r2.state.missed == g.missed
      && r2.state.currentQuestionIndex == g.currentQuestionIndex + 1
  {
  }
}

=== FILE: game.dfy ===
/** The quiz session state machine: starting a round, loading questions, judging answers
    (with the "temptation" soft rejection) and finishing with the best-time rule. */
module Game {
  import opened Wrappers
  import Catalog
  import Ordering
  import Timing

  /** Which field of the element the prompt shows. */
  datatype Mode = ByName | BySymbol | ByAtom

  /** Which answer input is on screen. */
  datatype InputMode = Select | Write

  /** The session record. Beyond the fields of the original record it keeps two things the
      event timeline needs: `pendingAdvances`, the number of deferred question loads scheduled
      by a correct answer and not yet run, and `shown`, the position of the question whose
      prompt was last put on screen. */
  datatype GameState = GameState(
    mode: Mode,
    input: InputMode,
    isPlaying: bool,
    startTime: nat,
    questions: seq<nat>,
    currentQuestionIndex: nat,
    missed: seq<string>,
    temptationActive: bool,
    temptationTriggered: bool,
    pendingAdvances: nat,
    shown: nat)

  /** The feedback an answer produces. `Crashed` is the type error raised when no question
      sits at the current position; the state is then left as it was. */
  datatype Verdict = Ignored | Correct | Tempted | Incorrect | Crashed

  /** The state after an answer, its verdict, and whether the drawing surface is cleared. */
  datatype Reply = Reply(state: GameState, verdict: Verdict, clearsCanvas: bool)

  /** The session pairs the round with the stored personal best, which outlives rounds. */
  datatype Session = Session(game: GameState, best: Option<string>)

  predicate NoDuplicates(xs: seq<string>) {
    forall i, j | 0 <= i < |xs| && 0 <= j < |xs| && i != j :: xs[i] != xs[j]
  }

  /** Adding a symbol to the miss set, kept as its members in insertion order. */
  function AddMissed(missed: seq<string>, sym: string): (r: seq<string>)
    ensures NoDuplicates(missed) ==> NoDuplicates(r)
    ensures forall x :: x in r <==> x in missed || x == sym
    ensures missed <= r && |r| <= |missed| + 1
  {
    if sym in missed then missed else missed + [sym]
  }

  /** A catalog element sits at the current position of the question order. */
  predicate HasQuestion(g: GameState) {
    g.currentQuestionIndex < |g.questions| && g.questions[g.currentQuestionIndex] < |Catalog.Elements|
  }

  /** The element the current position of the question order refers to. */
  function Current(g: GameState): Catalog.Element
    requires HasQuestion(g)
  {
    Catalog.Elements[g.questions[g.currentQuestionIndex]]
  }

  /** The answer check as written: it judges against whatever the current position holds,
      even while a deferred load is still pending. */
  function CheckAnswer(g: GameState, answer: int, fromOcr: bool): (r: Reply)
    ensures !g.isPlaying ==> r == Reply(g, Ignored, false)
    ensures r.verdict == Crashed <==> g.isPlaying && !HasQuestion(g)
    ensures r.verdict == Crashed ==> r.state == g
    ensures r.verdict == Tempted <==>
      g.isPlaying && HasQuestion(g) && answer == Current(g).n && g.temptationActive && !g.temptationTriggered
    ensures r.verdict == Tempted ==> r.state == g.(temptationTriggered := true)
    ensures r.verdict == Correct <==>
      g.isPlaying && HasQuestion(g) && answer == Current(g).n && !(g.temptationActive && !g.temptationTriggered)
    ensures r.verdict == Correct ==>
      r.state == g.(currentQuestionIndex := g.currentQuestionIndex + 1, pendingAdvances := g.pendingAdvances + 1)
    ensures r.verdict == Incorrect <==> g.isPlaying && HasQuestion(g) && answer != Current(g).n
    ensures r.verdict == Incorrect ==> r.state == g.(missed := AddMissed(g.missed, Current(g).s))
    ensures r.clearsCanvas <==> fromOcr && r.verdict in {Correct, Tempted, Incorrect}
  {
    if !g.isPlaying then Reply(g, Ignored, false)
    else if !HasQuestion(g) then Reply(g, Crashed, false)
    else if answer == Current(g).n then
      if g.temptationActive && !g.temptationTriggered then
        Reply(g.(temptationTriggered := true), Tempted, fromOcr)
      else
        Reply(g.(currentQuestionIndex := g.currentQuestionIndex + 1,
                 pendingAdvances := g.pendingAdvances + 1), Correct, fromOcr)
    else
      Reply(g.(missed := AddMissed(g.missed, Current(g).s)), Incorrect, fromOcr)
  }

  /** The corrected answer check: while a deferred load is pending the next question is not
      on screen yet, so an answer is ignored instead of being judged against it. */
  function Submit(g: GameState, answer: int, fromOcr: bool): (r: Reply)
    ensures g.pendingAdvances > 0 || !g.isPlaying ==> r == Reply(g, Ignored, false)
    ensures g.pendingAdvances == 0 ==> r == CheckAnswer(g, answer, fromOcr)
  {
    if g.pendingAdvances > 0 then Reply(g, Ignored, false) else CheckAnswer(g, answer, fromOcr)
  }

  /** Which answer check a caller uses: the check as written, or the corrected one. */
  datatype Check = AsWritten | Corrected

  /** The answer check `c` applied to an answer. */
  function Judge(c: Check, g: GameState, answer: int, fromOcr: bool): (r: Reply)
    ensures !g.isPlaying ==> r == Reply(g, Ignored, false)
    ensures r.clearsCanvas <==> fromOcr && r.verdict in {Correct, Tempted, Incorrect}
  {
    match c
    case AsWritten => CheckAnswer(g, answer, fromOcr)
    case Corrected => Submit(g, answer, fromOcr)
  }

  /** Loading the question at the current position is possible: a question is there, or the round is over. */
  predicate CanLoad(g: GameState) {
    g.currentQuestionIndex < Catalog.Count ==> HasQuestion(g)
  }

  /** Ending the round: play stops and the display `finalTime` goes through the best-time rule. */
  function FinishGame(s: Session, finalTime: string): (r: Session)
    ensures !r.game.isPlaying
    ensures r.game.(isPlaying := s.game.isPlaying) == s.game
    ensures r.best == Timing.UpdateBest(s.best, finalTime)
  {
    Session(s.game.(isPlaying := false), Timing.UpdateBest(s.best, finalTime))
  }

  /** Putting the question at the current position on screen, with a fresh temptation roll
      (`roll` stands for the draw coming out below 0.2). */
  function LoadQuestion(g: GameState, roll: bool): (r: GameState)
    requires HasQuestion(g)
    ensures r.shown == r.currentQuestionIndex == g.currentQuestionIndex
    ensures r.temptationActive == roll && !r.temptationTriggered
    ensures r.(temptationActive := g.temptationActive, temptationTriggered := g.temptationTriggered, shown := g.shown) == g
  {
    g.(shown := g.currentQuestionIndex, temptationActive := roll, temptationTriggered := false)
  }

  /** Moving on: past the last question the round finishes, otherwise the current question is loaded. */
  function NextQuestion(s: Session, roll: bool, finalTime: string): (r: Session)
    requires CanLoad(s.game)
    ensures s.game.currentQuestionIndex >= Catalog.Count ==> r == FinishGame(s, finalTime)
    ensures s.game.currentQuestionIndex < Catalog.Count ==>
      r == Session(LoadQuestion(s.game, roll), s.best) && r.game.isPlaying == s.game.isPlaying
  {
    if s.game.currentQuestionIndex >= Catalog.Count then FinishGame(s, finalTime)
    else Session(LoadQuestion(s.game, roll), s.best)
  }

  /** A deferred load scheduled by a correct answer runs. */
  function FireAdvance(s: Session, roll: bool, finalTime: string): (r: Session)
    requires s.game.pendingAdvances > 0 && CanLoad(s.game)
    ensures r.game.pendingAdvances == s.game.pendingAdvances - 1
    ensures r.game.currentQuestionIndex == s.game.currentQuestionIndex && r.game.missed == s.game.missed
    ensures r.game.isPlaying <==> s.game.isPlaying && s.game.currentQuestionIndex < Catalog.Count
    ensures r.game.isPlaying ==> r.game.shown == r.game.currentQuestionIndex && !r.game.temptationTriggered
    ensures s.game.currentQuestionIndex < Catalog.Count ==> r.game.temptationActive == roll && r.best == s.best
    ensures s.game.currentQuestionIndex >= Catalog.Count ==> r.best == Timing.UpdateBest(s.best, finalTime)
    ensures r.game.(pendingAdvances := s.game.pendingAdvances, isPlaying := s.game.isPlaying, shown := s.game.shown,
                    temptationActive := s.game.temptationActive, temptationTriggered := s.game.temptationTriggered) == s.game
  {
    NextQuestion(Session(s.game.(pendingAdvances := s.game.pendingAdvances - 1), s.best), roll, finalTime)
  }

  /** The invariant every started round keeps. The question order lists twenty distinct catalog
      positions (so each exactly once); the miss set holds catalog symbols without repeats; and when nothing
      is pending during play the question on screen is the one the current position names. */
  predicate Valid(g: GameState) {
    && Ordering.IsOrder(g.questions, Catalog.Count)
    && g.currentQuestionIndex <= Catalog.Count
    && NoDuplicates(g.missed)
    && (forall i | 0 <= i < |g.missed| :: Catalog.IsSymbol(g.missed[i]))
    && (g.isPlaying && g.pendingAdvances == 0 ==>
          g.currentQuestionIndex < Catalog.Count && g.shown == g.currentQuestionIndex)
  }

  /** Starting a round: the chosen modes and the clock reading `now` are recorded, a fresh order
      is shuffled with `draws`, the position and miss set are reset, and the first question is
      loaded with the temptation roll `roll`. Deferred loads left from an earlier round are not cancelled. */
  function StartGame(s: Session, mode: Mode, input: InputMode, draws: seq<nat>, now: nat, roll: bool): (r: Session)
    requires Ordering.ValidDraws(draws, Catalog.Count)
    ensures Valid(r.game) && r.game.isPlaying
    ensures r.game.currentQuestionIndex == 0 && r.game.shown == 0 && r.game.missed == []
    ensures r.game.temptationActive == roll && !r.game.temptationTriggered
    ensures r.game.mode == mode && r.game.input == input && r.game.startTime == now
    ensures r.game.questions == FreshOrder(draws)
    ensures r.game.pendingAdvances == s.game.pendingAdvances && r.best == s.best
  {
    var order := FreshOrder(draws);
    var g := s.game.(mode := mode, input := input, questions := order, currentQuestionIndex := 0,
                     missed := [], startTime := now, isPlaying := true, temptationTriggered := false);
    // Position 0 is below the question count, so the load never takes the finishing branch.
    var loaded := LoadQuestion(g, roll);
    FreshRoundIsValid(g, roll);
    Session(loaded, s.best)
  }

  lemma FreshRoundIsValid(g: GameState, roll: bool)
    requires Ordering.IsOrder(g.questions, Catalog.Count)
    requires g.currentQuestionIndex == 0 && g.missed == []
    ensures Valid(LoadQuestion(g, roll))
  {
  }

  /** A new question order: the catalog positions 0..19 shuffled with `draws`. Each position
      appears exactly once. */
  function FreshOrder(draws: seq<nat>): (order: seq<nat>)
    requires Ordering.ValidDraws(draws, Catalog.Count)
    ensures Ordering.IsOrder(order, Catalog.Count)
    ensures forall x | 0 <= x < Catalog.Count :: x in order
  {
    var order := Ordering.Shuffle(Ordering.Range(|draws|), draws);
    Ordering.ShuffledRangeIsPermutation(Catalog.Count, draws);
    Ordering.PermutationFacts(order, Catalog.Count);
    order
  }

  lemma ValidCanLoad(g: GameState)
    requires Valid(g)
    ensures CanLoad(g)
  {
  }

  /** The answer check as written keeps the invariant. */
  lemma CheckAnswerKeepsValid(g: GameState, answer: int, fromOcr: bool)
    requires Valid(g)
    ensures Valid(CheckAnswer(g, answer, fromOcr).state)
  {
    var r := CheckAnswer(g, answer, fromOcr);
    if r.verdict == Incorrect {
      var k := g.questions[g.currentQuestionIndex];
      assert Catalog.Elements[k].s == Current(g).s;
      assert Catalog.IsSymbol(Current(g).s);
      forall i | 0 <= i < |r.state.missed|
        ensures Catalog.IsSymbol(r.state.missed[i])
      {
        if i < |g.missed| {
          assert r.state.missed[i] == g.missed[i];
        }
      }
    }
  }

  /** A deferred load keeps the invariant. */
  lemma FireAdvanceKeepsValid(s: Session, roll: bool, finalTime: string)
    requires Valid(s.game) && s.game.pendingAdvances > 0
    ensures Valid(FireAdvance(s, roll, finalTime).game)
  {
  }

  /** In a started round the corrected check never hits the missing-question error. */
  lemma SubmitNeverCrashes(g: GameState, answer: int, fromOcr: bool)
    requires Valid(g)
    ensures Submit(g, answer, fromOcr).verdict != Crashed
  {
    if g.pendingAdvances == 0 && g.isPlaying {
      assert HasQuestion(g);
    }
  }

  /** The corrected check keeps the invariant. */
  lemma SubmitKeepsValid(g: GameState, answer: int, fromOcr: bool)
    requires Valid(g)
    ensures Valid(Submit(g, answer, fromOcr).state)
  {
    if g.pendingAdvances == 0 {
      CheckAnswerKeepsValid(g, answer, fromOcr);
    }
  }

  /** Either check keeps the invariant; with nothing pending the two checks agree. */
  lemma JudgeKeepsValid(c: Check, g: GameState, answer: int, fromOcr: bool)
    requires Valid(g)
    ensures Valid(Judge(c, g, answer, fromOcr).state)
    ensures g.pendingAdvances == 0 ==> Judge(c, g, answer, fromOcr) == CheckAnswer(g, answer, fromOcr)
  {
    match c {
      case AsWritten => CheckAnswerKeepsValid(g, answer, fromOcr);
      case Corrected => SubmitKeepsValid(g, answer, fromOcr);
    }
  }

  /** In a started round the corrected check judges the question on screen: a miss records the
      symbol of the element being shown, and only the shown element's number is accepted. */
  lemma SubmitJudgesShownQuestion(g: GameState, answer: int, fromOcr: bool)
    requires Valid(g)
    ensures var r := Submit(g, answer, fromOcr);
      && (r.verdict == Incorrect ==>
            answer != Catalog.Elements[g.questions[g.shown]].n
            && r.state.missed == AddMissed(g.missed, Catalog.Elements[g.questions[g.shown]].s))
      && (r.verdict in {Correct, Tempted} ==> answer == Catalog.Elements[g.questions[g.shown]].n)
  {
  }

  /** A wrong answer given three times and then the right one leaves the element in the miss
      set exactly once and moves on. */
  lemma RepeatedMissCountsOnce(g: GameState, wrong: int)
    requires Valid(g) && g.isPlaying && g.pendingAdvances == 0 && !g.temptationActive
    requires wrong != Current(g).n
    ensures var r1 := Submit(g, wrong, false);
      var r2 := Submit(r1.state, wrong, false);
      var r3 := Submit(r2.state, wrong, false);
      var r4 := Submit(r3.state, Current(g).n, false);
      && r1.verdict == r2.verdict == r3.verdict == Incorrect && r4.verdict == Correct
      && r4.state.missed == AddMissed(g.missed, Current(g).s)
      && r4.state.currentQuestionIndex == g.currentQuestionIndex + 1
      && multiset(r4.state.missed)[Current(g).s] == 1
  {
    var m := AddMissed(g.missed, Current(g).s);
    assert AddMissed(m, Current(g).s) == m;
    MultisetOfDistinct(m, Current(g).s);
  }

  /** A symbol occurs once in a repeat-free sequence that contains it. */
  lemma {:induction false} MultisetOfDistinct(xs: seq<string>, x: string)
    requires NoDuplicates(xs) && x in xs
    ensures multiset(xs)[x] == 1
  {
    var i :| 0 <= i < |xs| && xs[i] == x;
    assert xs == xs[..i] + [x] + xs[i + 1..];
    assert x !in xs[..i] by {
      forall j | 0 <= j < i ensures xs[..i][j] != x {
        assert xs[..i][j] == xs[j];
      }
    }
    var rest := xs[i + 1..];
    assert x !in rest by {
      forall j | 0 <= j < |rest| ensures rest[j] != x {
        assert rest[j] == xs[i + 1 + j];
      }
    }
  }

  /** On a temptation question the first right answer is held back without a miss, and the second one counts. */
  lemma TemptationNeedsSecondAnswer(g: GameState)
    requires Valid(g) && g.isPlaying && g.pendingAdvances == 0
    requires g.temptationActive && !g.temptationTriggered
    ensures var r1 := Submit(g, Current(g).n, false);
      var r2 := Submit(r1.state, Current(g).n, false);
      && r1.verdict == Tempted && r2.verdict == Correct
      && r1.state.currentQuestionIndex == g.currentQuestionIndex && r1.state.missed == g.missed
      && r2.state.currentQuestionIndex == g.currentQuestionIndex + 1 && r2.state.missed == g.missed
  {
  }

  /** Example: with Carbon (position 5 of the catalog, atomic number 6) on screen,
      6 is accepted and 7 puts "C" in the miss set. */
  lemma CarbonScenario(g: GameState)
    requires Valid(g) && g.isPlaying && g.pendingAdvances == 0 && !g.temptationActive
    requires g.questions[g.currentQuestionIndex] == 5 && g.missed == []
    ensures Submit(g, 6, false).verdict == Correct
    ensures Submit(g, 7, false).verdict == Incorrect && Submit(g, 7, false).state.missed == ["C"]
  {
  }
}

=== FILE: ordering.dfy ===
/** The question order of a round: the indices 0..19 shuffled by Fisher-Yates,
    with the random draws supplied by the caller. */
module Ordering {

  /** The indices 0, 1, ..., n-1 in increasing order (`[...Array(n).keys()]`). */
  function Range(n: nat): (r: seq<nat>)
    ensures |r| == n
    ensures forall i | 0 <= i < n :: r[i] == i
  {
    seq(n, i requires 0 <= i => i)
  }

  /** `q` holds each of 0..n-1 exactly once. */
  predicate IsPermutationOfRange(q: seq<nat>, n: nat) {
    multiset(q) == multiset(Range(n))
  }

  /** `q` lists n distinct positions below n, so each of 0..n-1 exactly once. */
  predicate IsOrder(q: seq<nat>, n: nat) {
    && |q| == n
    && (forall i | 0 <= i < |q| :: q[i] < n)
    && (forall i, j | 0 <= i < |q| && 0 <= j < |q| && i != j :: q[i] != q[j])
  }

  /** Draws usable for a shuffle of `n` items: one per position, the draw for position i lying in 0..i. */
  predicate ValidDraws(draws: seq<nat>, n: nat) {
    |draws| == n && forall i | 0 <= i < n :: draws[i] <= i
  }

  /** The destructuring swap `[a[i], a[j]] = [a[j], a[i]]`. */
  function Swap<T>(a: seq<T>, i: nat, j: nat): (r: seq<T>)
    requires i < |a| && j < |a|
    ensures |r| == |a| && r[i] == a[j] && r[j] == a[i]
    ensures forall k | 0 <= k < |a| && k != i && k != j :: r[k] == a[k]
    ensures multiset(r) == multiset(a)
  {
    a[i := a[j]][j := a[i]]
  }

  /** The shuffle loop from position `i` down to 1: swap position i with position `draws[i]`, then continue with i-1. */
  function ShuffleDown<T>(a: seq<T>, draws: seq<nat>, i: nat): (r: seq<T>)
    requires ValidDraws(draws, |a|) && i < |a|
    ensures |r| == |a|
    ensures multiset(r) == multiset(a)
    ensures forall k | i < k < |a| :: r[k] == a[k]
    decreases i
  {
    if i == 0 then a else ShuffleDown(Swap(a, i, draws[i]), draws, i - 1)
  }

  /** Fisher-Yates shuffle of `a`: a permutation of `a`, whatever the draws. */
  function Shuffle<T>(a: seq<T>, draws: seq<nat>): (r: seq<T>)
    requires ValidDraws(draws, |a|)
    ensures |r| == |a|
    ensures multiset(r) == multiset(a)
  {
    if |a| == 0 then a else ShuffleDown(a, draws, |a| - 1)
  }

  /** Each x occurs once in 0..n-1 when x < n and never otherwise. */
  lemma {:induction false} RangeCounts(n: nat, x: nat)
    ensures multiset(Range(n))[x] == if x < n then 1 else 0
  {
    if n > 0 {
      RangeCounts(n - 1, x);
      var r := Range(n - 1);
      assert Range(n) == r + [n - 1];
      assert multiset(Range(n)) == multiset(r) + multiset([n - 1]);
    }
  }

  /** A permutation of 0..n-1 has length n, stays in range, contains every index, and repeats none. */
  lemma PermutationFacts(q: seq<nat>, n: nat)
    requires IsPermutationOfRange(q, n)
    ensures IsOrder(q, n)
    ensures forall x | 0 <= x < n :: x in q
  {
    assert |multiset(q)| == |multiset(Range(n))|;
    forall i | 0 <= i < |q|
      ensures q[i] < n
    {
      RangeCounts(n, q[i]);
      assert q[i] in multiset(q);
    }
    forall x | 0 <= x < n
      ensures x in q
    {
      RangeCounts(n, x);
      assert x in multiset(q);
    }
    forall i, j | 0 <= i < |q| && 0 <= j < |q| && i != j
      ensures q[i] != q[j]
    {
      if q[i] == q[j] {
        if i < j {
          RepeatCountsTwice(q, i, j);
        } else {
          RepeatCountsTwice(q, j, i);
        }
        RangeCounts(n, q[i]);
      }
    }
  }

  /** A value at two different positions of a sequence occurs at least twice in its multiset. */
  lemma RepeatCountsTwice(q: seq<nat>, i: nat, j: nat)
    requires i < j < |q| && q[i] == q[j]
    ensures multiset(q)[q[i]] >= 2
  {
    assert q == q[..j] + q[j..];
    assert q[i] in multiset(q[..j]);
    assert q[j] in multiset(q[j..]);
  }

  /** Shuffling 0..n-1 with any valid draws yields each index exactly once. */
  lemma ShuffledRangeIsPermutation(n: nat, draws: seq<nat>)
    requires ValidDraws(draws, n)
    ensures IsPermutationOfRange(Shuffle(Range(n), draws), n)
    ensures IsOrder(Shuffle(Range(n), draws), n)
    ensures forall x | 0 <= x < n :: x in Shuffle(Range(n), draws)
  {
    PermutationFacts(Shuffle(Range(n), draws), n);
  }
}

=== FILE: recognition.dfy ===
/** The handwriting answer path: the recognizer's text is trimmed and normalized, looked up
    in the catalog by exact symbol, and a match is submitted as an answer. */
module Recognition {
  import opened Wrappers
  import Catalog
  import Symbols
  import Game

  /** An answer handed to the session: the atomic number and whether it came from recognition. */
  datatype Submission = Submission(answer: int, fromOcr: bool)

  /** The candidate symbol the recognizer's raw text stands for. */
  function Candidate(raw: string): (r: string)
    ensures Symbols.IsCanonical(r)
    ensures r == Symbols.NormalizeSymbol(raw)
  {
    Symbols.NormalizeIgnoresTrim(raw);
    Symbols.NormalizeSymbol(Symbols.Trim(raw))
  }

  /** What the recognized text submits: the atomic number of the element whose symbol the
      candidate is, flagged as coming from recognition; nothing when no symbol matches. */
  function Dispatch(raw: string): (r: Option<Submission>)
    ensures forall k | 0 <= k < |Catalog.Elements| ::
      r == Some(Submission(k + 1, true)) <==> Candidate(raw) == Catalog.Elements[k].s
    ensures r.None? <==> !Catalog.IsSymbol(Candidate(raw))
    ensures r.Some? ==> r.value.fromOcr
  {
    Catalog.NumbersFollowPositions();
    match Catalog.Find(Candidate(raw))
    case Some(e) => Some(Submission(e.n, true))
    case None => None
  }

  /** What the recognition engine delivers: no engine could be started, the call failed, or a text. */
  datatype EngineReply = Unavailable | Failed | Recognized(text: string)

  /** The outcome of one recognition attempt: the preview text shown under the drawing surface,
      and the session's reply when an answer was submitted. */
  datatype Attempt = Attempt(preview: string, reply: Option<Game.Reply>)

  /** One recognition attempt against the session state `g`, with answers judged by the check
      `c`. A missing engine shows "Err". A failed call, or an error raised while judging the
      answer, shows "?". Otherwise the candidate is shown and, when it names an element,
      submitted; an answer that gets judged clears the drawing surface, which resets the preview
      to "...". */
  function RecognizeText(c: Game.Check, g: Game.GameState, engine: EngineReply): (r: Attempt)
    ensures engine.Unavailable? ==> r == Attempt("Err", None)
    ensures engine.Failed? ==> r == Attempt("?", None)
    ensures r.reply.Some? <==> engine.Recognized? && Dispatch(engine.text).Some?
    ensures r.reply.Some? ==> r.reply.value == Game.Judge(c, g, Dispatch(engine.text).value.answer, true)
    ensures engine.Recognized? && (r.reply.None? || r.reply.value.verdict == Game.Ignored) ==>
      r.preview == Candidate(engine.text)
    ensures r.reply.Some? && r.reply.value.verdict == Game.Crashed ==> r.preview == "?"
    ensures r.reply.Some? && r.reply.value.verdict in {Game.Correct, Game.Tempted, Game.Incorrect} ==>
      r.preview == "..." && r.reply.value.clearsCanvas
    ensures !g.isPlaying && r.reply.Some? ==> r.reply.value.state == g && r.reply.value.verdict == Game.Ignored
  {
    match engine
    case Unavailable => Attempt("Err", None)
    case Failed => Attempt("?", None)
    case Recognized(raw) =>
      var text := Candidate(raw);
      match Dispatch(raw)
      case None => Attempt(text, None)
      case Some(sub) =>
        var reply := Game.Judge(c, g, sub.answer, sub.fromOcr);
        if reply.verdict == Game.Crashed then Attempt("?", Some(reply))
        else if reply.clearsCanvas then Attempt("...", Some(reply))
        else Attempt(text, Some(reply))
  }

  /** Every catalog symbol is already in normalized form. */
  lemma CatalogSymbolsAreCanonical()
    ensures forall k | 0 <= k < |Catalog.Elements| :: Symbols.IsCanonical(Catalog.Elements[k].s)
  {
  }

  /** Writing an element's symbol, with any white space around it, submits that element's atomic number. */
  lemma WritingASymbolSubmitsIt(k: nat, before: string, after: string)
    requires k < |Catalog.Elements|
    requires forall i | 0 <= i < |before| :: Symbols.IsSpace(before[i])
    requires forall i | 0 <= i < |after| :: Symbols.IsSpace(after[i])
    ensures Dispatch(before + Catalog.Elements[k].s + after) == Some(Submission(k + 1, true))
  {
    var sym := Catalog.Elements[k].s;
    CatalogSymbolsAreCanonical();
    Symbols.NormalizeFixesExactlyCanonical(sym);
    Symbols.SpacesHaveNoLetters(before);
    Symbols.SpacesHaveNoLetters(after);
    Symbols.LettersOfConcat(before, sym);
    Symbols.LettersOfConcat(before + sym, after);
    assert Symbols.Letters(sym) == sym;
    assert Symbols.Letters(before + sym + after) == sym;
    assert Candidate(before + sym + after) == sym;
  }

  /** A late recognition result arriving after the round ended changes nothing. */
  lemma LateResultIsIgnored(c: Game.Check, g: Game.GameState, engine: EngineReply)
    requires !g.isPlaying
    ensures var r := RecognizeText(c, g, engine);
      r.reply.None? || (r.reply.value.state == g && !r.reply.value.clearsCanvas)
  {
  }

  /** After the right answer to the last question and before the round finishes, a recognized
      symbol makes the check as written fail, so "?" is shown; the corrected check ignores it. */
  lemma RecognitionAfterLastAnswer(g: Game.GameState, k: nat)
    requires Game.Valid(g) && g.isPlaying && g.pendingAdvances > 0 && g.currentQuestionIndex == Catalog.Count
    requires k < |Catalog.Elements|
    ensures var sym := Catalog.Elements[k].s;
      var asWritten := RecognizeText(Game.AsWritten, g, Recognized(sym));
      var corrected := RecognizeText(Game.Corrected, g, Recognized(sym));
      && asWritten == Attempt("?", Some(Game.Reply(g, Game.Crashed, false)))
      && corrected == Attempt(sym, Some(Game.Reply(g, Game.Ignored, false)))
  {
    var sym := Catalog.Elements[k].s;
    WritingASymbolSubmitsIt(k, "", "");
    assert "" + sym + "" == sym;
    assert Dispatch(sym) == Some(Submission(k + 1, true));
    CatalogSymbolsAreCanonical();
    Symbols.NormalizeFixesExactlyCanonical(sym);
    assert Candidate(sym) == sym;
  }
}

=== FILE: rounds.dfy ===
/** Whole rounds as sequences of events: answers from any input, and the deferred question loads
    firing. Every answer goes through the answer check `c`: the program as written uses
    `Game.AsWritten`, the corrected program `Game.Corrected`. */
module Rounds {
  import Catalog
  import Timing
  import Game

  /** An answer submission, or a deferred load firing with its temptation roll and the timer
      display at that moment. */
  datatype Event = Answer(n: int, fromOcr: bool) | Timer(roll: bool, finalTime: string)

  /** One event. A timer fires only when a correct answer scheduled it. */
  function Step(c: Game.Check, s: Game.Session, e: Event): Game.Session {
    match e
    case Answer(n, fromOcr) => Game.Session(Game.Judge(c, s.game, n, fromOcr).state, s.best)
    case Timer(roll, finalTime) =>
      if s.game.pendingAdvances > 0 && Game.CanLoad(s.game) then Game.FireAdvance(s, roll, finalTime) else s
  }

  function Run(c: Game.Check, s: Game.Session, events: seq<Event>): Game.Session
    decreases |events|
  {
    if |events| == 0 then s else Run(c, Step(c, s, events[0]), events[1..])
  }

  /** Every event sequence keeps the round invariant, under either answer check. */
  lemma {:induction false} RunKeepsValid(c: Game.Check, s: Game.Session, events: seq<Event>)
    requires Game.Valid(s.game)
    ensures Game.Valid(Run(c, s, events).game)
    decreases |events|
  {
    if |events| > 0 {
      match events[0] {
        case Answer(n, fromOcr) =>
          Game.JudgeKeepsValid(c, s.game, n, fromOcr);
        case Timer(roll, finalTime) =>
          if s.game.pendingAdvances > 0 {
            Game.FireAdvanceKeepsValid(s, roll, finalTime);
          }
      }
      RunKeepsValid(c, Step(c, s, events[0]), events[1..]);
    }
  }

  /** Once the round has finished past the last question, no answer and no late timer changes
      it: play stays stopped and the order, position, miss set and temptation state stay put. */
  lemma {:induction false} FinishedRoundIsFrozen(c: Game.Check, s: Game.Session, events: seq<Event>)
    requires !s.game.isPlaying && s.game.currentQuestionIndex >= Catalog.Count
    ensures Run(c, s, events).game.(pendingAdvances := s.game.pendingAdvances) == s.game
    decreases |events|
  {
    if |events| > 0 {
      var next := Step(c, s, events[0]);
      assert next.game.(pendingAdvances := s.game.pendingAdvances) == s.game;
      FinishedRoundIsFrozen(c, next, events[1..]);
    }
  }

  /** The events of answering the question on screen correctly: once, or twice when it is a
      temptation question, followed by the deferred load. */
  function CorrectAnswerEvents(g: Game.GameState, roll: bool, finalTime: string): seq<Event>
    requires Game.HasQuestion(g)
  {
    var n := Game.Current(g).n;
    if g.temptationActive && !g.temptationTriggered then [Answer(n, false), Answer(n, false), Timer(roll, finalTime)]
    else [Answer(n, false), Timer(roll, finalTime)]
  }

  /** `r` is `s` one question further on: still valid with nothing pending, the same order, no miss added, play
      continuing exactly while a question is left (with the new question loaded with `roll`), and
      otherwise the round finished with the best-time rule applied to `finalTime`. */
  predicate MovedOnOne(s: Game.Session, r: Game.Session, roll: bool, finalTime: string) {
    && Game.Valid(r.game) && r.game.pendingAdvances == 0
    && r.game.currentQuestionIndex == s.game.currentQuestionIndex + 1
    && r.game.missed == s.game.missed && r.game.questions == s.game.questions
    && (r.game.isPlaying <==> r.game.currentQuestionIndex < Catalog.Count)
    && (r.game.isPlaying ==> r.best == s.best && !r.game.temptationTriggered && r.game.temptationActive == roll)
    && (!r.game.isPlaying ==> r.best == Timing.UpdateBest(s.best, finalTime))
  }

  /** Answering the question on screen correctly moves exactly one question on, without a miss;
      after the last question the round finishes and the best-time rule runs. */
  function AnswerCorrectly(c: Game.Check, s: Game.Session, roll: bool, finalTime: string): (r: Game.Session)
    requires Game.Valid(s.game) && s.game.isPlaying && s.game.pendingAdvances == 0
    ensures MovedOnOne(s, r, roll, finalTime)
  {
    CorrectAnswerRuns(c, s, roll, finalTime);
    Run(c, s, CorrectAnswerEvents(s.game, roll, finalTime))
  }

  lemma CorrectAnswerRuns(c: Game.Check, s: Game.Session, roll: bool, finalTime: string)
    requires Game.Valid(s.game) && s.game.isPlaying && s.game.pendingAdvances == 0
    ensures MovedOnOne(s, Run(c, s, CorrectAnswerEvents(s.game, roll, finalTime)), roll, finalTime)
  {
    var mid := CorrectAnswerReachesLoad(c, s, roll, finalTime);
    Game.FireAdvanceKeepsValid(mid, roll, finalTime);
  }

  /** The answers of `CorrectAnswerEvents` leave one deferred load pending at the next position;
      the final timer event runs it. */
  lemma CorrectAnswerReachesLoad(c: Game.Check, s: Game.Session, roll: bool, finalTime: string) returns (mid: Game.Session)
    requires Game.Valid(s.game) && s.game.isPlaying && s.game.pendingAdvances == 0
    ensures Game.Valid(mid.game) && mid.best == s.best && mid.game.isPlaying
    ensures mid.game.pendingAdvances == 1 && mid.game.missed == s.game.missed && mid.game.questions == s.game.questions
    ensures mid.game.currentQuestionIndex == s.game.currentQuestionIndex + 1
    ensures Run(c, s, CorrectAnswerEvents(s.game, roll, finalTime)) == Game.FireAdvance(mid, roll, finalTime)
  {
    var g := s.game;
    var n := Game.Current(g).n;
    if g.temptationActive && !g.temptationTriggered {
      var s1 := Step(c, s, Answer(n, false));
      Game.JudgeKeepsValid(c, g, n, false);
      assert s1.game == g.(temptationTriggered := true);
      mid := Step(c, s1, Answer(n, false));
      Game.JudgeKeepsValid(c, s1.game, n, false);
      RunThree(c, s, Answer(n, false), Answer(n, false), Timer(roll, finalTime));
    } else {
      mid := Step(c, s, Answer(n, false));
      Game.JudgeKeepsValid(c, g, n, false);
      RunTwo(c, s, Answer(n, false), Timer(roll, finalTime));
    }
  }

  lemma RunTwo(c: Game.Check, s: Game.Session, e1: Event, e2: Event)
    ensures Run(c, s, [e1, e2]) == Step(c, Step(c, s, e1), e2)
  {
    assert [e1, e2][1..] == [e2];
    assert [e2][1..] == [];
    assert Run(c, s, [e1, e2]) == Run(c, Step(c, s, e1), [e2]);
    assert Run(c, Step(c, s, e1), [e2]) == Run(c, Step(c, Step(c, s, e1), e2), []);
  }

  lemma RunThree(c: Game.Check, s: Game.Session, e1: Event, e2: Event, e3: Event)
    ensures Run(c, s, [e1, e2, e3]) == Step(c, Step(c, Step(c, s, e1), e2), e3)
  {
    assert [e1, e2, e3][1..] == [e2, e3];
    assert Run(c, s, [e1, e2, e3]) == Run(c, Step(c, s, e1), [e2, e3]);
    RunTwo(c, Step(c, s, e1), e2, e3);
  }

  /** Answering every remaining question correctly, with `rolls` as the temptation rolls of the
      questions loaded on the way. */
  function PlayPerfectly(c: Game.Check, s: Game.Session, rolls: seq<bool>, finalTime: string): (r: Game.Session)
    requires Game.Valid(s.game) && s.game.isPlaying && s.game.pendingAdvances == 0
    requires |rolls| == Catalog.Count - s.game.currentQuestionIndex
    ensures Game.Valid(r.game) && !r.game.isPlaying
    ensures r.game.currentQuestionIndex == Catalog.Count
    ensures r.game.missed == s.game.missed
    ensures r.best == Timing.UpdateBest(s.best, finalTime)
    decreases |rolls|
  {
    var next := AnswerCorrectly(c, s, rolls[0], finalTime);
    if |rolls| == 1 then next else PlayPerfectly(c, next, rolls[1..], finalTime)
  }
}

=== FILE: symbols.dfy ===
/** Turning the text handed back by the handwriting recognizer into a candidate element symbol. */
module Symbols {

  predicate IsUpper(c: char) { 'A' <= c <= 'Z' }

  predicate IsLower(c: char) { 'a' <= c <= 'z' }

  /** The characters the pattern `[a-zA-Z]` accepts: ASCII letters only. */
  predicate IsLetter(c: char) { IsUpper(c) || IsLower(c) }

  /** Upper-case mapping. It is only ever applied to ASCII letters, where it agrees with `toUpperCase`. */
  function Upper(c: char): (r: char)
    ensures IsLetter(c) ==> IsUpper(r)
    ensures IsUpper(c) ==> r == c
    ensures IsLower(c) ==> r as int == c as int - 32
  {
    if IsLower(c) then (c as int - 32) as char else c
  }

  /** Lower-case mapping, the counterpart of `Upper`. */
  function Lower(c: char): (r: char)
    ensures IsLetter(c) ==> IsLower(r)
    ensures IsLower(c) ==> r == c
    ensures IsUpper(c) ==> r as int == c as int + 32
  {
    if IsUpper(c) then (c as int + 32) as char else c
  }

  /** The subsequence of ASCII letters of `t`, in order: what deleting every match of `[^a-zA-Z]` leaves. */
  function Letters(t: string): (r: string)
    ensures |r| <= |t|
    ensures forall i | 0 <= i < |r| :: IsLetter(r[i])
    ensures |r| == 0 <==> forall i | 0 <= i < |t| :: !IsLetter(t[i])
    ensures (forall i | 0 <= i < |t| :: IsLetter(t[i])) ==> r == t
  {
    if |t| == 0 then []
    else (if IsLetter(t[0]) then [t[0]] else []) + Letters(t[1..])
  }

  lemma {:induction false} LettersOfConcat(a: string, b: string)
    ensures Letters(a + b) == Letters(a) + Letters(b)
  {
    if |a| == 0 {
      assert a + b == b;
    } else {
      assert (a + b)[1..] == a[1..] + b;
      LettersOfConcat(a[1..], b);
    }
  }

  /** The shape of a normalized symbol: at most two ASCII letters, the first upper case, the second lower case. */
  predicate IsCanonical(s: string) {
    && |s| <= 2
    && (forall i | 0 <= i < |s| :: IsLetter(s[i]))
    && (|s| >= 1 ==> IsUpper(s[0]))
    && (|s| == 2 ==> IsLower(s[1]))
  }

  /** The normalizer: keep the letters; one letter is upper-cased; two or more become
      upper case + lower case of the first two, the rest dropped; no letters gives "". */
  function NormalizeSymbol(text: string): (r: string)
    ensures IsCanonical(r)
    ensures r == "" <==> forall i | 0 <= i < |text| :: !IsLetter(text[i])
    ensures |r| == if |Letters(text)| < 2 then |Letters(text)| else 2
    ensures forall i | 0 <= i < |r| :: Upper(r[i]) == Upper(Letters(text)[i])
  {
    if text == "" then ""
    else
      var l := Letters(text);
      if |l| == 1 then [Upper(l[0])]
      else if |l| >= 2 then [Upper(l[0]), Lower(l[1])]
      else l
  }

  /** Normalizing twice is normalizing once. */
  lemma NormalizeIsIdempotent(text: string)
    ensures NormalizeSymbol(NormalizeSymbol(text)) == NormalizeSymbol(text)
  {
    var r := NormalizeSymbol(text);
    assert Letters(r) == r;
  }

  /** The fixed points of the normalizer are exactly the canonical strings. */
  lemma NormalizeFixesExactlyCanonical(s: string)
    ensures NormalizeSymbol(s) == s <==> IsCanonical(s)
  {
    if IsCanonical(s) {
      assert Letters(s) == s;
    }
  }

  /** Examples of the normalizer. */
  lemma NormalizeExamples()
    ensures NormalizeSymbol("h") == "H"
    ensures NormalizeSymbol("he") == "He"
    ensures NormalizeSymbol("HEE") == "He"
    ensures NormalizeSymbol("1C2") == "C"
    ensures NormalizeSymbol("") == ""
  {
    assert Letters("HEE") == "HEE";
    assert Letters("1C2") == "C" by {
      assert "1C2"[1..] == "C2";
      assert "C2"[1..] == "2";
      assert "2"[1..] == "";
    }
  }

  /** The characters `String.prototype.trim` removes: white space and line terminators. */
  predicate IsSpace(c: char) {
    || c == '\t' || c == '\n' || c == '\U{B}' || c == '\U{C}' || c == '\r' || c == ' '
    || c == '\U{A0}' || c == '\U{1680}' || ('\U{2000}' <= c <= '\U{200A}')
    || c == '\U{2028}' || c == '\U{2029}' || c == '\U{202F}' || c == '\U{205F}'
    || c == '\U{3000}' || c == '\U{FEFF}'
  }

  function TrimStart(t: string): (r: string)
    ensures |r| <= |t| && r == t[|t| - |r|..]
    ensures |r| > 0 ==> !IsSpace(r[0])
    ensures forall i | 0 <= i < |t| - |r| :: IsSpace(t[i])
  {
    if |t| > 0 && IsSpace(t[0]) then TrimStart(t[1..]) else t
  }

  function TrimEnd(t: string): (r: string)
    ensures |r| <= |t| && r == t[..|r|]
    ensures |r| > 0 ==> !IsSpace(r[|r| - 1])
    ensures forall i | |r| <= i < |t| :: IsSpace(t[i])
  {
    if |t| > 0 && IsSpace(t[|t| - 1]) then TrimEnd(t[..|t| - 1]) else t
  }

  /** `r` is the slice of `t` starting at `i` and everything of `t` outside that slice is white space. */
  predicate IsCoreAt(t: string, r: string, i: nat) {
    && i + |r| <= |t| && r == t[i..i + |r|]
    && (forall k | 0 <= k < i :: IsSpace(t[k]))
    && (forall k | i + |r| <= k < |t| :: IsSpace(t[k]))
  }

  /** `String.prototype.trim`: white space removed from both ends. The result is a slice of the
      input, everything cut off is white space, and neither end of the result is white space. */
  function Trim(t: string): (r: string)
    ensures exists i: nat :: IsCoreAt(t, r, i)
    ensures |r| == 0 || (!IsSpace(r[0]) && !IsSpace(r[|r| - 1]))
    ensures Letters(r) == Letters(t)
  {
    TrimKeepsLetters(t);
    TrimIsCore(t);
    TrimEnd(TrimStart(t))
  }

  lemma TrimIsCore(t: string)
    ensures IsCoreAt(t, TrimEnd(TrimStart(t)), |t| - |TrimStart(t)|)
  {
    var a := TrimStart(t);
    CoreOfSuffixPrefix(t, a, TrimEnd(a));
  }

  /** Cutting white space off the front of `t` (giving `a`) and then off the back of `a` (giving `r`) leaves a core of `t`. */
  lemma CoreOfSuffixPrefix(t: string, a: string, r: string)
    requires |a| <= |t| && a == t[|t| - |a|..] && (forall k | 0 <= k < |t| - |a| :: IsSpace(t[k]))
    requires |r| <= |a| && r == a[..|r|] && (forall k | |r| <= k < |a| :: IsSpace(a[k]))
    ensures IsCoreAt(t, r, |t| - |a|)
  {
    var i := |t| - |a|;
    assert r == t[i..i + |r|];
    forall k | i + |r| <= k < |t|
      ensures IsSpace(t[k])
    {
      assert a[k - i] == t[k];
    }
  }

  lemma TrimKeepsLetters(t: string)
    ensures Letters(TrimEnd(TrimStart(t))) == Letters(t)
  {
    TrimStartKeepsLetters(t);
    TrimEndKeepsLetters(TrimStart(t));
  }

  lemma TrimStartKeepsLetters(t: string)
    ensures Letters(TrimStart(t)) == Letters(t)
  {
    var a := TrimStart(t);
    var front := t[..|t| - |a|];
    assert t == front + a;
    SpacesHaveNoLetters(front);
    LettersOfConcat(front, a);
  }

  lemma TrimEndKeepsLetters(a: string)
    ensures Letters(TrimEnd(a)) == Letters(a)
  {
    var r := TrimEnd(a);
    var back := a[|r|..];
    assert a == r + back;
    SpacesHaveNoLetters(back);
    LettersOfConcat(r, back);
  }

  lemma SpacesHaveNoLetters(t: string)
    requires forall i | 0 <= i < |t| :: IsSpace(t[i])
    ensures Letters(t) == ""
  {
  }

  /** Trimming before normalizing, as the recognizer does, changes nothing. */
  lemma NormalizeIgnoresTrim(text: string)
    ensures NormalizeSymbol(Trim(text)) == NormalizeSymbol(text)
  {
    var t := Trim(text);
    assert Letters(t) == Letters(text);
  }
}

=== FILE: timing.dfy ===
/** The round timer's mm:ss.cc display and the personal-best rule that compares those displays as strings. */
module Timing {
  import opened Wrappers

  /** 100 minutes in milliseconds: below it the minutes field has two digits and the display eight characters. */
  const Limit: nat := 6_000_000

  /** The three displayed fields of an elapsed time. */
  datatype Clock = Clock(mins: nat, secs: nat, centis: nat)

  /** The fields the timer shows for `ms` elapsed milliseconds. Together they spell the elapsed
      time in whole centiseconds. */
  function ClockOf(ms: nat): (c: Clock)
    ensures c.secs < 60 && c.centis < 100
    ensures c.mins * 6000 + c.secs * 100 + c.centis == ms / 10
    ensures ms < Limit <==> c.mins < 100
  {
    var c := Clock(ms / 60000, (ms % 60000) / 1000, (ms % 1000) / 10);
    ClockArithmetic(ms);
    c
  }

  lemma ClockArithmetic(ms: nat)
    ensures (ms / 60000) * 6000 + ((ms % 60000) / 1000) * 100 + (ms % 1000) / 10 == ms / 10
  {
    var m := ms / 60000;
    var r := ms % 60000;
    var s := r / 1000;
    var t := r % 1000;
    assert ms == 60000 * m + 1000 * s + t;
    assert ms % 1000 == t;
    assert ms / 10 == 6000 * m + 100 * s + t / 10;
  }

  function DigitChar(d: nat): (c: char)
    requires d < 10
    ensures '0' <= c <= '9'
  {
    ('0' as int + d) as char
  }

  /** The decimal spelling of a natural number (`Number.prototype.toString`). `DecimalSpellsValue`
      states that it denotes `n` without a leading zero. */
  function Decimal(n: nat): (r: string)
    ensures 1 <= |r|
    ensures n < 10 <==> |r| == 1
    ensures forall i | 0 <= i < |r| :: '0' <= r[i] <= '9'
  {
    if n < 10 then [DigitChar(n)] else Decimal(n / 10) + [DigitChar(n % 10)]
  }

  /** The spelling denotes `n`, and only "0" itself starts with a zero. */
  lemma {:induction false} DecimalSpellsValue(n: nat)
    ensures DigitsValue(Decimal(n)) == n
    ensures |Decimal(n)| > 1 ==> Decimal(n)[0] != '0'
  {
    if n >= 10 {
      var front := Decimal(n / 10);
      DecimalSpellsValue(n / 10);
      var r := front + [DigitChar(n % 10)];
      assert r[..|r| - 1] == front;
      assert r[0] == front[0];
    }
  }

  /** The number a string of decimal digits denotes, read left to right. */
  function DigitsValue(s: string): int {
    if |s| == 0 then 0 else 10 * DigitsValue(s[..|s| - 1]) + DigitValue(s[|s| - 1])
  }

  /** `padStart(2, '0')` applied to the decimal spelling of `n`. */
  function Pad2(n: nat): (r: string)
    ensures n < 100 ==> r == [DigitChar(n / 10), DigitChar(n % 10)]
    ensures n >= 100 ==> |r| > 2
    ensures n >= 10 ==> r == Decimal(n)
    ensures n < 10 ==> r == ['0'] + Decimal(n)
  {
    var d := Decimal(n);
    DecimalOfTwoDigits(n);
    if |d| < 2 then ['0'] + d else d
  }

  lemma DecimalOfTwoDigits(n: nat)
    ensures 10 <= n < 100 ==> Decimal(n) == [DigitChar(n / 10), DigitChar(n % 10)]
  {
    if 10 <= n < 100 {
      assert Decimal(n / 10) == [DigitChar(n / 10)];
    }
  }

  /** The timer display `mm:ss.cc` for `ms` elapsed milliseconds. */
  function FormatTime(ms: nat): (r: string)
    ensures ms < Limit <==> |r| == 8
  {
    var c := ClockOf(ms);
    Pad2(c.mins) + ":" + Pad2(c.secs) + "." + Pad2(c.centis)
  }

  /** JavaScript's `<` on strings: lexicographic order, a proper prefix sorting first. */
  predicate LexLess(a: string, b: string) {
    if |a| == 0 then |b| > 0
    else if |b| == 0 then false
    else if a[0] != b[0] then a[0] < b[0]
    else LexLess(a[1..], b[1..])
  }

  /** No string sorts before itself. */
  lemma {:induction false} LexLessIrreflexive(a: string)
    ensures !LexLess(a, a)
  {
    if |a| > 0 {
      LexLessIrreflexive(a[1..]);
    }
  }

  /** String `<` is transitive. */
  lemma {:induction false} LexLessTransitive(a: string, b: string, c: string)
    requires LexLess(a, b) && LexLess(b, c)
    ensures LexLess(a, c)
  {
    if |a| > 0 && |b| > 0 && |c| > 0 && a[0] == b[0] && b[0] == c[0] {
      LexLessTransitive(a[1..], b[1..], c[1..]);
    }
  }

  /** Of two different strings one sorts before the other. */
  lemma {:induction false} LexLessTotal(a: string, b: string)
    requires a != b
    ensures LexLess(a, b) || LexLess(b, a)
  {
    if |a| > 0 && |b| > 0 && a[0] == b[0] {
      assert a == [a[0]] + a[1..] && b == [b[0]] + b[1..];
      LexLessTotal(a[1..], b[1..]);
    }
  }

  /** Comparing two concatenations whose first parts have equal length compares the first parts, then the second. */
  lemma {:induction false} LexLessOfConcat(u: string, v: string, u': string, v': string)
    requires |u| == |u'|
    ensures LexLess(u + v, u' + v') <==> LexLess(u, u') || (u == u' && LexLess(v, v'))
  {
    if |u| == 0 {
      assert u + v == v && u' + v' == v';
    } else {
      assert (u + v)[1..] == u[1..] + v;
      assert (u' + v')[1..] == u'[1..] + v';
      LexLessOfConcat(u[1..], v, u'[1..], v');
      if u[0] == u'[0] && u[1..] == u'[1..] {
        assert u == u';
      }
    }
  }

  /** On two-digit fields string order is number order. */
  lemma Pad2Order(a: nat, b: nat)
    requires a < 100 && b < 100
    ensures LexLess(Pad2(a), Pad2(b)) <==> a < b
    ensures Pad2(a) == Pad2(b) <==> a == b
  {
    var x, y := Pad2(a), Pad2(b);
    assert x[1..] == [x[1]] && y[1..] == [y[1]];
    assert [x[1]][1..] == [] && [y[1]][1..] == [];
    assert LexLess([x[1]], [y[1]]) <==> x[1] < y[1];
    assert LexLess(x, y) <==> x[0] < y[0] || (x[0] == y[0] && x[1] < y[1]);
    assert a < b <==> a / 10 < b / 10 || (a / 10 == b / 10 && a % 10 < b % 10);
    if x == y {
      assert x[0] == y[0] && x[1] == y[1];
    }
  }

  /** The display split at its separators, so fields can be compared one by one. */
  lemma FormatParts(ms: nat)
    ensures var c := ClockOf(ms);
      FormatTime(ms) == Pad2(c.mins) + (":" + (Pad2(c.secs) + ("." + Pad2(c.centis))))
  {
  }

  /** Below 100 minutes the display order is the order of the elapsed centiseconds. */
  lemma FormatOrder(a: nat, b: nat)
    requires a < Limit && b < Limit
    ensures LexLess(FormatTime(a), FormatTime(b)) <==> a / 10 < b / 10
    ensures FormatTime(a) == FormatTime(b) <==> a / 10 == b / 10
  {
    FormatLess(a, b);
    FormatEqual(a, b);
  }

  lemma FormatLess(a: nat, b: nat)
    requires a < Limit && b < Limit
    ensures LexLess(FormatTime(a), FormatTime(b)) <==> a / 10 < b / 10
  {
    var ca, cb := ClockOf(a), ClockOf(b);
    FormatParts(a);
    FormatParts(b);
    Pad2Order(ca.mins, cb.mins);
    Pad2Order(ca.secs, cb.secs);
    Pad2Order(ca.centis, cb.centis);
    var sa := "." + Pad2(ca.centis);
    var sb := "." + Pad2(cb.centis);
    LexLessOfConcat(".", Pad2(ca.centis), ".", Pad2(cb.centis));
    var ta := Pad2(ca.secs) + sa;
    var tb := Pad2(cb.secs) + sb;
    LexLessOfConcat(Pad2(ca.secs), sa, Pad2(cb.secs), sb);
    var wa := ":" + ta;
    var wb := ":" + tb;
    LexLessOfConcat(":", ta, ":", tb);
    LexLessOfConcat(Pad2(ca.mins), wa, Pad2(cb.mins), wb);
    assert !LexLess(".", ".") && !LexLess(":", ":");
  }

  lemma FormatEqual(a: nat, b: nat)
    requires a < Limit && b < Limit
    ensures FormatTime(a) == FormatTime(b) <==> a / 10 == b / 10
  {
    var ca, cb := ClockOf(a), ClockOf(b);
    Pad2Order(ca.mins, cb.mins);
    Pad2Order(ca.secs, cb.secs);
    Pad2Order(ca.centis, cb.centis);
    FieldsOfFormat(a);
    FieldsOfFormat(b);
  }

  /** Below 100 minutes the fields sit at fixed places of the display. */
  lemma FieldsOfFormat(ms: nat)
    requires ms < Limit
    ensures var c, f := ClockOf(ms), FormatTime(ms);
      && f[..2] == Pad2(c.mins) && f[3..5] == Pad2(c.secs) && f[6..] == Pad2(c.centis)
      && f[2] == ':' && f[5] == '.'
  {
    FormatParts(ms);
  }

  /** Value of a decimal digit character. */
  function DigitValue(c: char): int {
    c as int - '0' as int
  }

  /** Reads an eight-character `mm:ss.cc` display back as a count of centiseconds. */
  function ParseCentis(s: string): int
    requires |s| == 8
  {
    6000 * (10 * DigitValue(s[0]) + DigitValue(s[1]))
    + 100 * (10 * DigitValue(s[3]) + DigitValue(s[4]))
    + 10 * DigitValue(s[6]) + DigitValue(s[7])
  }

  /** Below 100 minutes the display loses only the sub-centisecond part of the time. */
  lemma ParseFormat(ms: nat)
    requires ms < Limit
    ensures |FormatTime(ms)| == 8 && ParseCentis(FormatTime(ms)) == ms / 10
  {
    var c := ClockOf(ms);
    FormatParts(ms);
    var f := FormatTime(ms);
    assert f[0] == DigitChar(c.mins / 10) && f[1] == DigitChar(c.mins % 10);
    assert f[3] == DigitChar(c.secs / 10) && f[4] == DigitChar(c.secs % 10);
    assert f[6] == DigitChar(c.centis / 10) && f[7] == DigitChar(c.centis % 10);
  }

  /** From 100 minutes on the order breaks: 100:00.00 sorts before 99:59.99. */
  lemma OrderBreaksAtHundredMinutes()
    ensures LexLess(FormatTime(6_000_000), FormatTime(5_999_990))
  {
    var late, early := FormatTime(6_000_000), FormatTime(5_999_990);
    HundredStartsWithOne();
    FirstCharOfFormat(6_000_000);
    FirstCharOfFormat(5_999_990);
    assert ClockOf(6_000_000).mins == 100 && ClockOf(5_999_990).mins == 99;
    assert late[0] == '1' && early[0] == '9';
  }

  lemma HundredStartsWithOne()
    ensures Pad2(100)[0] == '1'
  {
    assert Decimal(1) == ['1'];
    assert Decimal(10) == Decimal(1) + [DigitChar(0)];
    assert Decimal(100) == Decimal(10) + [DigitChar(0)];
  }

  lemma FirstCharOfFormat(ms: nat)
    ensures |FormatTime(ms)| > 0 && FormatTime(ms)[0] == Pad2(ClockOf(ms).mins)[0]
  {
  }

  /** The personal-best rule: store the new display when nothing usable is stored or it sorts before the stored one. */
  function UpdateBest(stored: Option<string>, time: string): (r: Option<string>)
    ensures r.Some?
    ensures r == stored || r == Some(time)
    ensures stored.None? || stored.value == "" || LexLess(time, stored.value) ==> r == Some(time)
    ensures stored.Some? && stored.value != "" && !LexLess(time, stored.value) ==> r == stored
  {
    if stored.None? || stored.value == "" || LexLess(time, stored.value) then Some(time) else stored
  }

  /** Below 100 minutes the stored display is that of the faster of the two times. */
  lemma UpdateBestKeepsFaster(best: nat, time: nat)
    requires best < Limit && time < Limit
    ensures UpdateBest(Some(FormatTime(best)), FormatTime(time))
         == Some(FormatTime(if time / 10 < best / 10 then time else best))
  {
    FormatOrder(time, best);
  }

  /** The stored best after the rounds finished with `times`, oldest first. */
  function RecordAll(stored: Option<string>, times: seq<nat>): Option<string>
    decreases |times|
  {
    if |times| == 0 then stored else RecordAll(UpdateBest(stored, FormatTime(times[0])), times[1..])
  }

  /** Starting from a stored display of `best`, recording more rounds keeps the display of the fastest time seen. */
  lemma {:induction false} RecordAllFrom(best: nat, times: seq<nat>) returns (w: nat)
    requires best < Limit
    requires forall i | 0 <= i < |times| :: times[i] < Limit
    ensures w < Limit && RecordAll(Some(FormatTime(best)), times) == Some(FormatTime(w))
    ensures w == best || w in times
    ensures w / 10 <= best / 10
    ensures forall i | 0 <= i < |times| :: w / 10 <= times[i] / 10
  {
    if |times| == 0 {
      w := best;
    } else {
      var t, rest := times[0], times[1..];
      var next := if t / 10 < best / 10 then t else best;
      assert RecordAll(Some(FormatTime(best)), times)
          == RecordAll(UpdateBest(Some(FormatTime(best)), FormatTime(t)), rest);
      UpdateBestKeepsFaster(best, t);
      assert forall i | 0 <= i < |rest| :: rest[i] == times[i + 1];
      w := RecordAllFrom(next, rest);
      forall i | 0 <= i < |times|
        ensures w / 10 <= times[i] / 10
      {
        if i > 0 {
          assert times[i] == rest[i - 1];
        }
      }
      assert w in rest ==> w in times;
    }
  }

  /** With nothing stored, after a series of rounds the stored display is that of the fastest round. */
  lemma RecordAllKeepsFastest(times: seq<nat>) returns (k: nat)
    requires |times| > 0
    requires forall i | 0 <= i < |times| :: times[i] < Limit
    ensures k < |times| && RecordAll(None, times) == Some(FormatTime(times[k]))
    ensures forall i | 0 <= i < |times| :: times[k] / 10 <= times[i] / 10
  {
    var rest := times[1..];
    FirstRoundIsStored(times);
    assert forall i | 0 <= i < |rest| :: rest[i] == times[i + 1];
    var w := RecordAllFrom(times[0], rest);
    k := PositionOfMinimum(times, w);
  }

  /** With nothing stored, the first round's display is stored. */
  lemma FirstRoundIsStored(times: seq<nat>)
    requires |times| > 0
    ensures RecordAll(None, times) == RecordAll(Some(FormatTime(times[0])), times[1..])
  {
    assert UpdateBest(None, FormatTime(times[0])) == Some(FormatTime(times[0]));
  }

  /** A value taken from the series and no slower than any of its rounds sits at some position of it. */
  lemma PositionOfMinimum(times: seq<nat>, w: nat) returns (k: nat)
    requires |times| > 0 && (w == times[0] || w in times[1..])
    requires w / 10 <= times[0] / 10
    requires forall i | 0 <= i < |times[1..]| :: w / 10 <= times[1..][i] / 10
    ensures k < |times| && times[k] == w
    ensures forall i | 0 <= i < |times| :: w / 10 <= times[i] / 10
  {
    var rest := times[1..];
    if w == times[0] {
      k := 0;
    } else {
      var j :| 0 <= j < |rest| && rest[j] == w;
      k := j + 1;
    }
    forall i | 0 <= i < |times|
      ensures w / 10 <= times[i] / 10
    {
      if i > 0 {
        assert times[i] == rest[i - 1];
      }
    }
  }
}

=== FILE: wrappers.dfy ===
/** The optional value used where the quiz works with something that may be missing:
    a stored best time, or the catalog element a recognized symbol refers to. */
module Wrappers {

  datatype Option<+T> = None | Some(value: T)
}
